=== FILE: README.md ===
# FreshnessLedger in Dafny

FreshnessLedger is a client-side food-provenance demo. This project models the
parts of it that hold logic, and proves properties about them:

- **Product search** (`SearchPage`, `SearchFilters`). A free-text query is
  matched case-insensitively against a product's name, farmer, farm and
  location. Three conjunctive filters follow: a location substring, a
  certification substring that any of the product's certifications may
  satisfy, and an in-stock flag. The result keeps the catalogue's order. The
  filter panel works on the five-field filter record: a one-field update, a
  clear-all, an "anything active" test, per-badge remove buttons, and the
  labels of the date and price badges. The page's state cells (query, filter
  record, sort key, panel visibility) belong to a class, and each setter
  replaces them.
- **The QR-scan flow** (`Scan`). There are three views: Idle, Scanning and
  Found. The camera button, the file input, the scan timer and "Scan Another
  Product" drive them. `Next` is a pure transition function over the state
  cells. The class `ScanPage` holds the same cells. Each of its four event
  methods is specified by `Next`, and `SimulateScan` by `SimulateScanStep`.
  Lemmas prove that only three states are reachable,
  that a scan starts only from Idle, and that the stored product is always
  FRESH001.
- **Journey points** (`MapSupplyChain`, `JourneyTimeline`). These cover the
  status-to-colour and status-to-icon tables, and the case-insensitive
  event-to-emoji table. They also cover the integer layout of the map's
  points and connectors, the location label (the text before the first
  comma), and selection by id. A map click updates the selected point and
  forwards it to the parent.

Letter-case folding covers the ASCII letters only: `Lower` maps `A`–`Z` to
`a`–`z` and leaves every other character as it is. The model assumes that
the product texts need nothing more.

## Model

| member | source | states |
|---|---|---|
| `Text.Lower` | app/search/page.tsx:122-125 | `toLowerCase` keeps the length and folds each character on its own. |
| `Text.BeforeComma` | components/map/map-supply-chain.tsx:141 | `split(',')[0]` is a prefix of the location that has no comma and ends at the first comma or at the end of the string. |
| `Text.BeforeCommaWhole` | components/map/map-supply-chain.tsx:197 | The label is the whole location exactly when the location has no comma. |
| `Text.BeforeCommaOfJoin` | components/map/map-supply-chain.tsx:141 | The label of "City,State" with a comma-free city is the city. |
| `Text.Includes` | app/search/page.tsx:122-125 | `includes` is true iff the needle occurs at some offset: it finds every occurrence, and a true result has one behind it. A found needle is no longer than the text, and the empty string and any prefix are always found. |
| `Text.IncludesLowered` | app/search/page.tsx:122-125 | An occurrence of the needle is still an occurrence after both strings are lower-cased. |
| `Text.BeforeCommaUnique` | components/map/map-supply-chain.tsx:141 | The three properties of the label determine it: no other prefix has them. |
| `SearchFilters.UpdateFilter` | components/search/search-filters.tsx:49-54 | The new record holds `v` under `k` and equals the old record on every other key. |
| `SearchFilters.UpdateFilterIdempotent` | components/search/search-filters.tsx:49-54 | Applying the same update twice gives the record of applying it once. |
| `SearchFilters.UpdateFilterCommutes` | components/search/search-filters.tsx:49-54 | Updates of two different keys give the same record in either order. |
| `SearchFilters.UpdateFilterSameValue` | components/search/search-filters.tsx:49-54 | Writing back a key's current value leaves the record unchanged. |
| `SearchFilters.ClearAllFilters` | components/search/search-filters.tsx:56-64 | Every field is empty: `''` for the four strings and `false` for in-stock-only. |
| `SearchFilters.Values` | components/search/search-filters.tsx:66 | `Object.values` lists the five fields in key order. |
| `SearchFilters.HasActiveFilters` | components/search/search-filters.tsx:66 | True iff some field is neither `''` nor `false`. All five fields count, `dateRange` and `priceRange` included. |
| `SearchFilters.InactiveIffCleared` | components/search/search-filters.tsx:56-66 | A record has nothing active exactly when it equals the cleared record. |
| `SearchFilters.DateRangeAloneIsActive` | components/search/search-filters.tsx:66 | A record whose only set field is `dateRange` counts as active. |
| `SearchFilters.RemoveBadge` | components/search/search-filters.tsx:185-239 | A badge's remove button resets its own field to `''` (or `false` for in-stock-only) and no other field. |
| `SearchFilters.RemoveAllBadgesClears` | components/search/search-filters.tsx:185-239 | Removing the five badges in turn gives the cleared record. |
| `SearchFilters.RemoveBadgeActive` | components/search/search-filters.tsx:181-239 | After one badge is removed, the record is active exactly when some other field was active. |
| `SearchFilters.Badges` | components/search/search-filters.tsx:181-239 | A badge shows for exactly the active fields, in the order location, certification, date, price, in-stock, with none twice. The badge row is non-empty iff `hasActiveFilters`. |
| `SearchFilters.Rank` | components/search/search-filters.tsx:181-239 | A key's rank is its position in the record's key order, which is also the order of the badge blocks. |
| `SearchFilters.BadgesFromInOrder` | components/search/search-filters.tsx:181-239 | Picking the active keys out of an ordered key list keeps them in order. |
| `SearchFilters.FirstMatch` | components/search/search-filters.tsx:209 | `find` returns the first option whose value equals the selected value, or nothing when no option matches. |
| `SearchFilters.FindLabel` | components/search/search-filters.tsx:209-220 | The badge label is the label of the first option with an equal value, and is absent iff no option matches. |
| `SearchFilters.FindLabelOfOption` | components/search/search-filters.tsx:209-220 | When option values are distinct, each option's value finds that option's own label. |
| `SearchFilters.RangeLabelsResolve` | components/search/search-filters.tsx:34-46 | Every selectable date value and price value finds its own label. |
| `SearchPage.MatchesSearch` | app/search/page.tsx:121-125 | An empty query matches every product. Otherwise a product matches iff the folded query occurs in the folded name, farmer, farm or location. |
| `SearchPage.SomeCertification` | app/search/page.tsx:129-131 | True iff some certification contains the filter text, ignoring case. A product with no certifications never matches, and an empty filter text matches any product that has one. |
| `SearchPage.MatchesFilters` | app/search/page.tsx:127-132 | Empty location and certification texts with in-stock-only off admit every product. A set location must occur in the product's location, a set certification in one of its certifications, and in-stock-only admits only products in stock. Conversely, a product that meets every set filter is admitted, so an unset filter imposes nothing. |
| `SearchPage.FilteredProducts` | app/search/page.tsx:120-135 | The result is an order-preserving sub-sequence of the input and is no longer than it. A product is in it iff it is in the input and passes `matchesSearch && matchesFilters`. |
| `SearchPage.FilteredMultiplicity` | app/search/page.tsx:120-135 | A kept product appears exactly as often as in the input, and a rejected product does not appear. |
| `SearchPage.FilteredIdempotent` | app/search/page.tsx:120-135 | Filtering the result again with the same query and filters changes nothing. |
| `SearchPage.EmptyQueryMatches` | app/search/page.tsx:121 | An empty query matches every product. |
| `SearchPage.QueryCaseInsensitive` | app/search/page.tsx:121-125 | Two queries that fold to the same text match the same products. |
| `SearchPage.NameFindsProduct` | app/search/page.tsx:122 | A query equal to the product's name in any letter case finds that product. |
| `SearchPage.NameSubstringFindsProduct` | app/search/page.tsx:122 | A query that occurs exactly in the product's name, at any offset, finds that product. |
| `SearchPage.InStockOnlyExcludes` | app/search/page.tsx:132 | With in-stock-only set, every product in the result is in stock. |
| `SearchPage.RangesIgnored` | app/search/page.tsx:127-132 | `dateRange` and `priceRange` never change the result. |
| `SearchPage.ClearedReturnsAll` | app/search/page.tsx:255-263 | With the query `''` and every filter empty, every product is returned, in order. |
| `SearchPage.ActiveBadge` | app/search/page.tsx:195 | When the "Active" badge shows, the panel also reports active filters. When it does not show, the filters reject no product. It shows exactly when the record would be active with its date and price ranges blanked: those two fields never turn it on. |
| `SearchPage.BadgeOffWhilePanelActive` | app/search/page.tsx:195 | A record with only a date range set is active in the panel but shows no "Active" badge. |
| `SearchPage.Page.constructor` | app/search/page.tsx:109-118 | The page starts with an empty query, the panel hidden, empty filters and the sort key 'relevance', so it shows the whole catalogue. |
| `SearchPage.Page.Results` | app/search/page.tsx:120-135 | The filtered list before sorting: the catalogue products that pass the current query and filters, in catalogue order. |
| `SearchPage.Page.SetSearchQuery` | app/search/page.tsx:180 | Replaces the query and nothing else. |
| `SearchPage.Page.ToggleFilters` | app/search/page.tsx:190 | Flips panel visibility and leaves the results unchanged. |
| `SearchPage.Page.SetSortBy` | app/search/page.tsx:206 | Replaces the sort key and leaves the filtered list unchanged. |
| `SearchPage.Page.ApplyFilterUpdate` | app/search/page.tsx:232 | The panel's `onFiltersChange` stores the updated record and leaves the other cells alone. |
| `SearchPage.Page.ApplyClearAll` | app/search/page.tsx:232 | Clear All resets the filters but keeps the query. |
| `SearchPage.Page.ClearSearch` | app/search/page.tsx:243-263 | The button exists only when no product is shown. The query becomes `''` and the filters become empty, so the whole catalogue is shown. Panel visibility and the sort key are unchanged. |
| `Scan.ScannedProduct` | app/scan/page.tsx:60-101 | The key 'FRESH001' is in the lookup table, and its record has id 'FRESH001'. |
| `Scan.PhaseOf` | app/scan/page.tsx:124-150 | The product card shows iff a product is stored. The spinner shows iff no product is stored and a scan is running. |
| `Scan.SimulateScanStep` | app/scan/page.tsx:96-102 | `simulateScan` sets scanning, keeps the product and schedules one timer. |
| `Scan.TimerStep` | app/scan/page.tsx:98-101 | The timer callback clears scanning and stores `mockProducts['FRESH001']`. |
| `Scan.Next` | app/scan/page.tsx:96-339 | The camera and file controls act only in Idle, the timer only when one is pending, and "Scan Another Product" acts exactly in Found. Scanning starts only from Idle through the camera or a file. The product changes only when the timer stores FRESH001 or "Scan Another Product" clears it. At most one timer is added per event. |
| `Scan.InvStates` | app/scan/page.tsx:92-102 | A reachable state is Idle, Scanning with one timer pending, or Found with FRESH001. |
| `Scan.NextPreservesInv` | app/scan/page.tsx:96-189 | Every event keeps the page in a reachable state. |
| `Scan.RunPreservesInv` | app/scan/page.tsx:92-339 | Any sequence of events keeps the page in a reachable state. |
| `Scan.ScanStartsOnlyFromIdle` | app/scan/page.tsx:124-189 | Scanning starts only from Idle, and only through the camera button or a file change that has a first file. |
| `Scan.FoundOnlyByTimer` | app/scan/page.tsx:98-101 | A product appears only when the timer fires during a scan, and that product is FRESH001. |
| `Scan.EmptyFileInputIgnored` | app/scan/page.tsx:185-189 | A file change without a first file (the list is null or empty) does nothing. |
| `Scan.ScanAnotherResets` | app/scan/page.tsx:336-339 | "Scan Another Product" in the Found view returns to the initial state. |
| `Scan.ScanCycle` | app/scan/page.tsx:92-339 | Camera or file, then the timer, then "Scan Another Product", go Idle → Scanning → Found → Idle. |
| `Scan.ScanPage.constructor` | app/scan/page.tsx:92-93 | The page starts not scanning, with no product, in the Idle view. |
| `Scan.ScanPage.SimulateScan` | app/scan/page.tsx:96-102 | The cells become scanning, the product is unchanged, and the view is Scanning. |
| `Scan.ScanPage.CameraClick` | app/scan/page.tsx:161-168 | The camera button's effect is the `Next` step, and the page stays in a reachable state. |
| `Scan.ScanPage.FileChange` | app/scan/page.tsx:180-189 | The file input's effect is the `Next` step: it starts a scan only when there is a first file. |
| `Scan.ScanPage.TimerFired` | app/scan/page.tsx:98-101 | A pending timer stops the scan and stores the FRESH001 record. |
| `Scan.ScanPage.ScanAnotherClick` | app/scan/page.tsx:334-342 | In the Found view, the page returns to its initial state. |
| `MapSupplyChain.StatusColor` | components/map/map-supply-chain.tsx:43-54 | 'completed' maps to green, 'current' to pulsing blue, and every other status, 'pending' included, to gray. |
| `MapSupplyChain.IconOfLowered` | components/map/map-supply-chain.tsx:57-70 | The five listed events get 🌱, 📦, 🚛, ⚙️ and ✅ in turn, and any other folded event gets the default pin. |
| `MapSupplyChain.StatusIcon` | components/map/map-supply-chain.tsx:56-71 | The pin shows iff the lower-cased event is none of harvested, packaged, in transit, processing or delivered. Those five get 🌱, 📦, 🚛, ⚙️ and ✅ in turn. |
| `MapSupplyChain.StatusIconIgnoresCase` | components/map/map-supply-chain.tsx:56-58 | Events that differ only in letter case get the same icon. |
| `MapSupplyChain.StatusIconOfLowered` | components/map/map-supply-chain.tsx:56-58 | Folding an event before the lookup does not change its icon. |
| `MapSupplyChain.StatusIconCapitalised` | components/map/map-supply-chain.tsx:58-59 | 'Harvested' gets the seedling. |
| `MapSupplyChain.StatusIconUnlisted` | components/map/map-supply-chain.tsx:68-69 | An event outside the table gets the pin. |
| `MapSupplyChain.LayoutIncreasing` | components/map/map-supply-chain.tsx:100-101 | Both coordinates strictly increase with the index, by 60 and 80 pixels per step. |
| `MapSupplyChain.MarkerAt` | components/map/map-supply-chain.tsx:99-142 | Point i sits at (80 + 60i, 100 + 80i) with the colour of its status and the icon of its event. Its label is `split(',')[0]` of its location, a comma-free prefix, placed 30 pixels right of and 5 above the point. It has a connector iff it is not the last point, and the connector starts 12 right of and 24 below the point. |
| `MapSupplyChain.Markers` | components/map/map-supply-chain.tsx:99-145 | There is one marker per point, in order. Later markers lie strictly right of and below earlier ones, every marker but the last has a connector, and each connector starts above the next marker. |
| `MapSupplyChain.ConnectorCountAllButLast` | components/map/map-supply-chain.tsx:106 | Markers with a connector at every index except the last draw one connector fewer than there are markers. |
| `MapSupplyChain.ConnectorsOfMap` | components/map/map-supply-chain.tsx:106 | n points draw n − 1 connectors, and no points draw none. |
| `MapSupplyChain.IsSelected` | components/map/map-supply-chain.tsx:184 | Nothing is highlighted without a selection. With one, an entry is highlighted iff its id equals the selected id, so the selected point itself always is. |
| `MapSupplyChain.SelectionHighlightsOne` | components/map/map-supply-chain.tsx:179-185 | When ids are distinct, selecting a listed point highlights its own sidebar entry and no other. |
| `MapSupplyChain.SupplyChainMap.constructor` | components/map/map-supply-chain.tsx:34-35 | No point is selected at first, and nothing has been forwarded. |
| `MapSupplyChain.SupplyChainMap.HandlePointClick` | components/map/map-supply-chain.tsx:38-41 | The clicked point becomes the selection and is forwarded iff `onPointSelect` is given. Afterwards an entry is highlighted iff its id equals the clicked id. |
| `JourneyTimeline.StatusColor` | components/map/journey-timeline.tsx:17-28 | 'completed' maps to green, 'current' to blue, and anything else to gray. |
| `JourneyTimeline.StatusIcon` | components/map/journey-timeline.tsx:30-41 | 'completed' maps to CheckCircle, 'current' to Navigation, and anything else to Circle. |
| `JourneyTimeline.EventIcon` | components/map/journey-timeline.tsx:43-58 | The pin shows iff the lower-cased event is none of the five listed events, which get 🌱, 📦, 🚛, ⚙️ and ✅ in turn from the timeline's own table. |
| `JourneyTimeline.EventIconMatchesMap` | components/map/journey-timeline.tsx:43-58 | For every event, the timeline's emoji is the map's emoji. |
| `JourneyTimeline.DotColor` | components/map/journey-timeline.tsx:86-90 | The timeline dot has the same colour class as the map's marker for the same status. |
| `JourneyTimeline.IconColor` | components/map/journey-timeline.tsx:124-128 | The status icon is green for completed, blue for current, and gray for anything else. |
| `JourneyTimeline.SameThreeWaySplit` | components/map/journey-timeline.tsx:86-128 | Badge colour, status icon, dot colour and icon colour split the statuses the same way: completed, current, and everything else. |
| `JourneyTimeline.EntryOf` | components/map/journey-timeline.tsx:72-83 | An entry is selected iff a point is selected and it has the entry's id. Its event emoji, status icon, badge colour, dot colour and icon colour are those of the timeline's tables for its event and status. |
| `JourneyTimeline.Entries` | components/map/journey-timeline.tsx:72 | There is one entry per point, in order. |
| `JourneyTimeline.NothingSelected` | components/map/journey-timeline.tsx:74 | With no point selected, no entry is highlighted. |
| `JourneyTimeline.SelectedEntryUnique` | components/map/journey-timeline.tsx:74 | When ids are distinct, selecting point k highlights entry k and no other. |
| `JourneyTimeline.Click` | components/map/journey-timeline.tsx:83 | A click forwards exactly the clicked point, once, iff `onPointSelect` is given. |

## Left out

- Sorting (app/search/page.tsx:137-152) and the count it displays (line 220) are not modelled. The comparators parse prices and distances with `parseFloat`, compare floating-point ratings and parse dates. `Page.Results` is the list before sorting. The 'relevance' comparator returns 0, so under it the displayed order is the filtered order only because `Array.prototype.sort` is stable.
- Letter case: `toLowerCase` is modelled on ASCII letters only. Unicode case mapping is not modelled.
- Time: the 2000 ms delay of the scan timer is not modelled. The timer's firing is the `TimerFired` event, and the timers scheduled but not yet fired are a count.
- Scan.ScanPage.SimulateScan: requires the Idle view. The source function has no guard, but its two callers sit in the Idle view's controls (app/scan/page.tsx:160-190). A click on a control that is not rendered leaves the state unchanged in `Next`.
- SearchFilters.UpdateFilter: requires the value's type to match the key (a string for the four selects, a boolean for the checkbox). Every call in components/search/search-filters.tsx passes such a pair. JavaScript would store a mismatched value, and that case is not modelled.
- The option lists `locations` and `certifications` (components/search/search-filters.tsx:15-32) only populate the select boxes. The model lets a filter hold any string.
- Filter panel visibility (app/search/page.tsx:225) is recorded in `showFilters`, but the panel handlers are not gated on it.
- The search page's six mock products are not included. `Page` takes its product list as a constructor argument. The scan page's FRESH001 record is included in full, because the timer stores it.
- The "Upload Image" button (app/scan/page.tsx:173) only opens the browser's file dialog, so it is not modelled. The dialog's result arrives as the `FileChange` event.
- Rendering is not modelled: framer-motion animation, Tailwind classes other than the colour and icon tables, lucide icons, images, `toLocaleDateString`, `Link` navigation, and the text of the location and certification badges. The location badge uses the same `split(',')[0]` as `BeforeComma` (components/search/search-filters.tsx:187).
- A numeric point id is an integer, and a numeric reading is a real. JavaScript's floating-point numbers (NaN, infinities, rounding) are not modelled.
- Static pages and configuration are outside the model: components/home/*, components/layout/navigation.tsx, app/layout.tsx, app/page.tsx, components/providers/client-provider.tsx, components/search/product-grid.tsx, components/search/search-bar.tsx and app/map/page.tsx.

=== FILE: journey_timeline.dfy ===
/**
 * The journey timeline (components/map/journey-timeline.tsx): stateless. It
 * classifies each point's status and event, marks the entry whose id equals
 * the selected point's, and forwards a clicked point to the parent.
 */
module JourneyTimeline {
  import opened Optional
  import opened Text
  import Map = MapSupplyChain

  type JourneyPoint = Map.JourneyPoint

  /** The status badge classes of `getStatusColor`. */
  const CompletedBadge: string := "text-green-600 bg-green-100"
  const CurrentBadge: string := "text-blue-600 bg-blue-100"
  const OtherBadge: string := "text-gray-600 bg-gray-100"

  /** `getStatusColor`: green for completed, blue for current, gray for pending and anything else. */
  function StatusColor(status: string): (r: string)
    ensures r == CompletedBadge <==> status == "completed"
    ensures r == CurrentBadge <==> status == "current"
    ensures r == OtherBadge <==> status != "completed" && status != "current"
  {
    match status
    case "completed" => CompletedBadge
    case "current" => CurrentBadge
    case "pending" => OtherBadge
    case _ => OtherBadge
  }

  /** The lucide icon components `getStatusIcon` chooses from. */
  datatype StatusIconKind = CheckCircle | Navigation | Circle

  /** `getStatusIcon`: CheckCircle for completed, Navigation for current, Circle for anything else. */
  function StatusIcon(status: string): (r: StatusIconKind)
    ensures r == CheckCircle <==> status == "completed"
    ensures r == Navigation <==> status == "current"
    ensures r == Circle <==> status != "completed" && status != "current"
  {
    match status
    case "completed" => CheckCircle
    case "current" => Navigation
    case "pending" => Circle
    case _ => Circle
  }

  /** `getEventIcon`: the event's emoji, matched after folding it to lower case. */
  function EventIcon(event: string): (r: string)
    ensures r == Map.DefaultPin <==> Lower(event) !in Map.IconEvents
    ensures forall i :: 0 <= i < |Map.IconEvents| && Lower(event) == Map.IconEvents[i] ==> r == Map.IconEmoji[i]
  {
    match Lower(event)
    case "harvested" => "🌱"
    case "packaged" => "📦"
    case "in transit" => "🚛"
    case "processing" => "⚙️"
    case "delivered" => "✅"
    case _ => "📍"
  }

  /** The timeline and the map show the same emoji for every event. */
  lemma EventIconMatchesMap(event: string)
    ensures EventIcon(event) == Map.StatusIcon(event)
  {
  }

  /** The colour of a point's dot on the timeline line. */
  function DotColor(status: string): (r: string)
    ensures r == Map.StatusColor(status)
  {
    if status == "completed" then "bg-green-500"
    else if status == "current" then "bg-blue-500 animate-pulse"
    else "bg-gray-400"
  }

  /** The colour of the status icon at the right of an entry. */
  function IconColor(status: string): (r: string)
    ensures r == "text-green-600" <==> status == "completed"
    ensures r == "text-blue-600" <==> status == "current"
    ensures r == "text-gray-400" <==> status != "completed" && status != "current"
  {
    if status == "completed" then "text-green-600"
    else if status == "current" then "text-blue-600"
    else "text-gray-400"
  }

  /**
   * The badge colour, the status icon, the dot colour and the icon colour all
   * split the statuses the same way: two statuses get the same one of them
   * exactly when they get the same of each of the others.
   */
  lemma SameThreeWaySplit(s: string, t: string)
    ensures StatusColor(s) == StatusColor(t) <==> StatusIcon(s) == StatusIcon(t)
    ensures StatusIcon(s) == StatusIcon(t) <==> DotColor(s) == DotColor(t)
    ensures DotColor(s) == DotColor(t) <==> IconColor(s) == IconColor(t)
  {
  }

  /** One rendered entry of the timeline. */
  datatype Entry = Entry(
    point: JourneyPoint,
    eventIcon: string,
    statusIcon: StatusIconKind,
    badgeColor: string,
    dotColor: string,
    iconColor: string,
    selected: bool)

  function EntryOf(p: JourneyPoint, selectedPoint: Option<JourneyPoint>): (e: Entry)
    ensures e.point == p
    ensures e.selected <==> selectedPoint.Some? && selectedPoint.value.id == p.id
    ensures e.eventIcon == EventIcon(p.event) && e.statusIcon == StatusIcon(p.status)
    ensures e.badgeColor == StatusColor(p.status) && e.dotColor == DotColor(p.status) && e.iconColor == IconColor(p.status)
  {
    Entry(p, EventIcon(p.event), StatusIcon(p.status), StatusColor(p.status),
          DotColor(p.status), IconColor(p.status), Map.IsSelected(selectedPoint, p))
  }

  /** `journeyData.map(...)`: one entry per point, in order. */
  function Entries(journeyData: seq<JourneyPoint>, selectedPoint: Option<JourneyPoint>): (es: seq<Entry>)
    ensures |es| == |journeyData|
    ensures forall i :: 0 <= i < |es| ==> es[i] == EntryOf(journeyData[i], selectedPoint)
  {
    seq(|journeyData|, i requires 0 <= i < |journeyData| => EntryOf(journeyData[i], selectedPoint))
  }

  /** With no point selected, no entry is highlighted. */
  lemma NothingSelected(journeyData: seq<JourneyPoint>)
    ensures forall e :: e in Entries(journeyData, None) ==> !e.selected
  {
  }

  /** With distinct ids, selecting point `k` highlights entry `k` and no other. */
  lemma SelectedEntryUnique(journeyData: seq<JourneyPoint>, k: int)
    requires Map.DistinctIds(journeyData) && 0 <= k < |journeyData|
    ensures var es := Entries(journeyData, Some(journeyData[k]));
            forall i :: 0 <= i < |es| ==> (es[i].selected <==> i == k)
  {
  }

  /** A click on an entry: `onPointSelect?.(point)`, as the list of points the callback receives. */
  function Click(hasOnPointSelect: bool, point: JourneyPoint): (forwarded: seq<JourneyPoint>)
    ensures forall q :: q in forwarded ==> q == point
    ensures |forwarded| == 1 <==> hasOnPointSelect
    ensures |forwarded| <= 1
  {
    if hasOnPointSelect then [point] else []
  }
}

=== FILE: map_supply_chain.dfy ===
/**
 * The supply-chain map (components/map/map-supply-chain.tsx): the journey
 * point record, the status and event classifications, the integer layout of
 * the points and connectors, the location label, and the selected-point state
 * that a click updates before forwarding the point to the parent.
 */
module MapSupplyChain {
  import opened Optional
  import opened Text

  /** `string | number`; ids are compared with `===`, so a string id never equals a number id. */
  datatype PointId = StrId(s: string) | NumId(n: int)

  /** A temperature or humidity reading: `string | number`. */
  datatype Reading = TextReading(text: string) | NumberReading(value: real)

  datatype JourneyPoint = JourneyPoint(
    id: PointId,
    event: string,
    status: string,
    location: string,
    date: string,
    time: string,
    description: Option<string>,
    temperature: Option<Reading>,
    humidity: Option<Reading>)

  const CompletedColor: string := "bg-green-500"
  const CurrentColor: string := "bg-blue-500 animate-pulse"
  const PendingColor: string := "bg-gray-400"

  /** `getStatusColor`: green for completed, pulsing blue for current, gray for pending and anything else. */
  function StatusColor(status: string): (r: string)
    ensures r == CompletedColor <==> status == "completed"
    ensures r == CurrentColor <==> status == "current"
    ensures r == PendingColor <==> status != "completed" && status != "current"
  {
    match status
    case "completed" => CompletedColor
    case "current" => CurrentColor
    case "pending" => PendingColor
    case _ => PendingColor
  }

  /** The events with their own icon, already folded to lower case. */
  const IconEvents: seq<string> := ["harvested", "packaged", "in transit", "processing", "delivered"]

  /** The emoji of each listed event, position by position. */
  const IconEmoji: seq<string> := ["🌱", "📦", "🚛", "⚙️", "✅"]

  const DefaultPin: string := "📍"

  /** The icon table, on a folded event name. */
  function IconOfLowered(e: string): (r: string)
    ensures r == DefaultPin <==> e !in IconEvents
    ensures forall i :: 0 <= i < |IconEvents| && e == IconEvents[i] ==> r == IconEmoji[i]
  {
    match e
    case "harvested" => "🌱"
    case "packaged" => "📦"
    case "in transit" => "🚛"
    case "processing" => "⚙️"
    case "delivered" => "✅"
    case _ => DefaultPin
  }

  /** `getStatusIcon`: the icon of the event, matched after folding it to lower case. */
  function StatusIcon(event: string): (r: string)
    ensures r == DefaultPin <==> Lower(event) !in IconEvents
    ensures forall i :: 0 <= i < |IconEvents| && Lower(event) == IconEvents[i] ==> r == IconEmoji[i]
  {
    IconOfLowered(Lower(event))
  }

  /** Events that differ only in letter case get the same icon. */
  lemma StatusIconIgnoresCase(a: string, b: string)
    requires Lower(a) == Lower(b)
    ensures StatusIcon(a) == StatusIcon(b)
  {
  }

  /** Folding an event first does not change its icon. */
  lemma StatusIconOfLowered(event: string)
    ensures StatusIcon(Lower(event)) == StatusIcon(event)
  {
    LowerIdempotent(event);
  }

  /** An event spelled with capitals still gets its own icon. */
  lemma StatusIconCapitalised()
    ensures StatusIcon("Harvested") == "🌱"
  {
    assert LowerChar('H') == 'h';
    assert Lower("Harvested") == "harvested";
  }

  /** An event outside the table gets the pin. */
  lemma StatusIconUnlisted()
    ensures StatusIcon("Stored") == DefaultPin
  {
  }

  /** Left edge of point `i`, in pixels. */
  function PointX(i: nat): int
  {
    80 + 60 * i
  }

  /** Top edge of point `i`, in pixels. */
  function PointY(i: nat): int
  {
    100 + 80 * i
  }

  /** Later points lie strictly to the right of and strictly below earlier ones. */
  lemma LayoutIncreasing(i: nat, j: nat)
    requires i < j
    ensures PointX(i) < PointX(j) && PointY(i) < PointY(j)
    ensures PointX(j) - PointX(i) == 60 * (j - i) && PointY(j) - PointY(i) == 80 * (j - i)
  {
  }

  /** A drawn point: position, colour, icon, label, and the connector to the next point if any. */
  datatype Marker = Marker(
    x: int,
    y: int,
    color: string,
    icon: string,
    caption: string,
    labelX: int,
    labelY: int,
    connector: Option<(int, int)>)

  /** The marker drawn for point `i` of `n`. */
  function MarkerAt(p: JourneyPoint, i: nat, n: nat): (m: Marker)
    ensures m.x == PointX(i) && m.y == PointY(i)
    ensures m.color == StatusColor(p.status) && m.icon == StatusIcon(p.event)
    ensures m.caption == BeforeComma(p.location)
    ensures m.caption <= p.location && ',' !in m.caption
    ensures m.labelX == m.x + 30 && m.labelY == m.y - 5
    ensures m.connector.Some? <==> i + 1 < n
    ensures m.connector.Some? ==> m.connector.value == (m.x + 12, m.y + 24)
  {
    var x := PointX(i);
    var y := PointY(i);
    Marker(x, y, StatusColor(p.status), StatusIcon(p.event), BeforeComma(p.location), x + 30, y - 5,
           if i < n - 1 then Some((x + 12, y + 24)) else None)
  }

  /** `journeyData.map((point, index) => ...)` over the map area. */
  function Markers(points: seq<JourneyPoint>): (ms: seq<Marker>)
    ensures |ms| == |points|
    ensures forall i :: 0 <= i < |ms| ==> ms[i] == MarkerAt(points[i], i, |points|)
    ensures forall i, j :: 0 <= i < j < |ms| ==> ms[i].x < ms[j].x && ms[i].y < ms[j].y
    ensures forall i :: 0 <= i < |ms| ==> (ms[i].connector.Some? <==> i + 1 < |ms|)
    ensures forall i :: 0 <= i < |ms| - 1 ==> ms[i].connector.value.1 < ms[i + 1].y
  {
    seq(|points|, i requires 0 <= i < |points| => MarkerAt(points[i], i, |points|))
  }

  /** How many connectors a list of markers draws. */
  function ConnectorCount(ms: seq<Marker>): nat
  {
    if ms == [] then 0 else (if ms[0].connector.Some? then 1 else 0) + ConnectorCount(ms[1..])
  }

  /** Markers that have a connector exactly at the indices before the last draw one fewer than their number. */
  lemma {:induction false} ConnectorCountAllButLast(ms: seq<Marker>)
    requires forall i :: 0 <= i < |ms| ==> (ms[i].connector.Some? <==> i + 1 < |ms|)
    ensures ConnectorCount(ms) == if ms == [] then 0 else |ms| - 1
  {
    if ms != [] {
      ConnectorCountAllButLast(ms[1..]);
    }
  }

  /** `n` points are joined by `n - 1` connectors. */
  lemma ConnectorsOfMap(points: seq<JourneyPoint>)
    ensures ConnectorCount(Markers(points)) == if points == [] then 0 else |points| - 1
  {
    ConnectorCountAllButLast(Markers(points));
  }

  /** `selectedPoint?.id === point.id`: highlighted when a point is selected and has the same id. */
  function IsSelected(selected: Option<JourneyPoint>, p: JourneyPoint): (r: bool)
    ensures selected == None ==> !r
    ensures selected == Some(p) ==> r
    ensures selected.Some? ==> (r <==> selected.value.id == p.id)
  {
    selected.Some? && selected.value.id == p.id
  }

  predicate DistinctIds(points: seq<JourneyPoint>)
  {
    forall i, j :: 0 <= i < j < |points| ==> points[i].id != points[j].id
  }

  /** With distinct ids, selecting a listed point highlights exactly its own entry. */
  lemma SelectionHighlightsOne(points: seq<JourneyPoint>, k: int)
    requires DistinctIds(points) && 0 <= k < |points|
    ensures forall j :: 0 <= j < |points| ==> (IsSelected(Some(points[k]), points[j]) <==> j == k)
  {
  }

  /** The map's local selection, and the points handed to `onPointSelect` so far. */
  class SupplyChainMap {
    const journeyData: seq<JourneyPoint>
    const hasOnPointSelect: bool
    var selectedPoint: Option<JourneyPoint>
    var forwarded: seq<JourneyPoint>

    constructor (points: seq<JourneyPoint>, withCallback: bool)
      ensures journeyData == points && hasOnPointSelect == withCallback
      ensures selectedPoint == None && forwarded == []
    {
      journeyData := points;
      hasOnPointSelect := withCallback;
      selectedPoint := None;
      forwarded := [];
    }

    /** Whether the sidebar entry of `p` is highlighted. */
    function Highlighted(p: JourneyPoint): bool
      reads this
    {
      IsSelected(selectedPoint, p)
    }

    /** `handlePointClick`: select the point, then forward that same point when a callback is given. */
    method HandlePointClick(point: JourneyPoint)
      modifies this
      ensures selectedPoint == Some(point)
      ensures forwarded == old(forwarded) + (if hasOnPointSelect then [point] else [])
      ensures Highlighted(point)
      ensures forall q :: Highlighted(q) <==> q.id == point.id
    {
      selectedPoint := Some(point);
      if hasOnPointSelect {
        forwarded := forwarded + [point];
      }
    }
  }
}

=== FILE: optional.dfy ===
/** A value that may be absent: JavaScript's `null` / `undefined` for a field or a lookup. */
module Optional {
  datatype Option<+T> = None | Some(value: T)
}

=== FILE: scan.dfy ===
/**
 * The QR-scan flow of the scan page (app/scan/page.tsx): two state cells,
 * `isScanning` and `scannedProduct`, driven by the camera button, the file
 * input, the scan timer and the "Scan Another Product" button. The timer's
 * delay is not modelled; its firing is an event, and the timers scheduled but
 * not yet fired are counted.
 */
module Scan {
  import opened Optional

  datatype Farmer = Farmer(name: string, farm: string, location: string, certifications: seq<string>)
  datatype Harvest = Harvest(date: string, quality: string, weight: string)
  datatype JourneyStep = JourneyStep(location: string, date: string, event: string)
  datatype Sustainability = Sustainability(waterUsage: string, carbonFootprint: string, packaging: string)

  datatype Product = Product(
    id: string,
    name: string,
    image: string,
    farmer: Farmer,
    harvest: Harvest,
    journey: seq<JourneyStep>,
    certifications: seq<string>,
    sustainability: Sustainability)

  /** The one product of the page's lookup table. */
  const Fresh001: Product := Product(
    "FRESH001",
    "Organic Roma Tomatoes",
    "https://images.pexels.com/photos/1327838/pexels-photo-1327838.jpeg?auto=compress&cs=tinysrgb&w=400",
    Farmer("Maria Gonzalez", "Sunshine Organic Farms", "Salinas, California", ["USDA Organic", "Non-GMO Project"]),
    Harvest("2025-01-10", "Premium Grade A", "2.5 lbs"),
    [ JourneyStep("Salinas, CA", "2025-01-10", "Harvested"),
      JourneyStep("Salinas, CA", "2025-01-11", "Packaged"),
      JourneyStep("Fresno, CA", "2025-01-12", "Distribution Center"),
      JourneyStep("San Francisco, CA", "2025-01-13", "Retail Store") ],
    ["Organic", "Non-GMO", "Fair Trade"],
    Sustainability("30% less than conventional", "Carbon neutral", "100% recyclable"))

  /** `mockProducts`: the lookup table keyed by product id. */
  const MockProducts: map<string, Product> := map["FRESH001" := Fresh001]

  /** The id the timer looks up. */
  const ScannedId: string := "FRESH001"

  /** What the timer stores: the table's entry for "FRESH001". */
  function ScannedProduct(): (p: Product)
    ensures ScannedId in MockProducts && p == MockProducts[ScannedId]
    ensures p.id == ScannedId
  {
    MockProducts[ScannedId]
  }

  /** The page's two state cells, plus the timers scheduled and not yet fired. */
  datatype ScanState = ScanState(isScanning: bool, scannedProduct: Option<Product>, pendingTimers: nat)

  /** Which view is rendered: the controls, the spinner, or the product card. */
  datatype Phase = Idle | Scanning | Found

  function PhaseOf(s: ScanState): (ph: Phase)
    ensures ph == Found <==> s.scannedProduct.Some?
    ensures ph == Scanning <==> s.scannedProduct.None? && s.isScanning
  {
    if s.scannedProduct.Some? then Found else if s.isScanning then Scanning else Idle
  }

  /** `useState(false)` and `useState(null)`. */
  const Initial: ScanState := ScanState(false, None, 0)

  /** The user's actions and the timer. A file input change carries `e.target.files`, possibly null. */
  datatype Event = CameraClick | FileChange(files: Option<seq<string>>) | TimerFired | ScanAnotherClick

  /** `e.target.files?.[0]` is truthy: the list exists and has a first file. */
  predicate FirstFilePresent(files: Option<seq<string>>)
  {
    files.Some? && |files.value| > 0
  }

  /** `simulateScan`: start scanning, keep the product, schedule one timer. */
  function SimulateScanStep(s: ScanState): (r: ScanState)
    ensures r.isScanning && r.scannedProduct == s.scannedProduct
    ensures r.pendingTimers == s.pendingTimers + 1
  {
    s.(isScanning := true, pendingTimers := s.pendingTimers + 1)
  }

  /** The timer callback: stop scanning and store the looked-up product. */
  function TimerStep(s: ScanState): (r: ScanState)
    requires s.pendingTimers > 0
    ensures !r.isScanning && r.scannedProduct == Some(MockProducts[ScannedId])
    ensures r.pendingTimers + 1 == s.pendingTimers
  {
    s.(isScanning := false, scannedProduct := Some(ScannedProduct()), pendingTimers := s.pendingTimers - 1)
  }

  /**
   * One event. A click or change on a control that is not rendered in the
   * current view cannot happen and leaves the state as it is; so does a timer
   * event with no timer scheduled.
   */
  function Next(s: ScanState, e: Event): (r: ScanState)
    ensures (e.CameraClick? || e.FileChange?) && PhaseOf(s) != Idle ==> r == s
    ensures e.TimerFired? && s.pendingTimers == 0 ==> r == s
    ensures e.ScanAnotherClick? ==> (r == s <==> PhaseOf(s) != Found)
    ensures r.isScanning && !s.isScanning ==> PhaseOf(s) == Idle && (e.CameraClick? || e.FileChange?)
    ensures r.scannedProduct != s.scannedProduct ==>
      || (e.TimerFired? && r.scannedProduct == Some(ScannedProduct()))
      || (e.ScanAnotherClick? && r.scannedProduct.None?)
    ensures r.pendingTimers <= s.pendingTimers + 1
  {
    match e
    case CameraClick =>
      if PhaseOf(s) == Idle then SimulateScanStep(s) else s
    case FileChange(files) =>
      if PhaseOf(s) == Idle && FirstFilePresent(files) then SimulateScanStep(s) else s
    case TimerFired =>
      if s.pendingTimers > 0 then TimerStep(s) else s
    case ScanAnotherClick =>
      if PhaseOf(s) == Found then s.(scannedProduct := None, isScanning := false) else s
  }

  /** The states reachable from `Initial`. */
  predicate Inv(s: ScanState)
  {
    && s.pendingTimers <= 1
    && (s.isScanning <==> s.pendingTimers == 1)
    && (s.isScanning ==> s.scannedProduct.None?)
    && (s.scannedProduct.Some? ==> s.scannedProduct.value == ScannedProduct())
  }

  /** A reachable state is one of exactly three: Idle, Scanning with one timer, or Found. */
  lemma InvStates(s: ScanState)
    requires Inv(s)
    ensures s == Initial || s == ScanState(true, None, 1) || s == ScanState(false, Some(ScannedProduct()), 0)
  {
  }

  /** Every event keeps the invariant. */
  lemma NextPreservesInv(s: ScanState, e: Event)
    requires Inv(s)
    ensures Inv(Next(s, e))
  {
  }

  /** Run a sequence of events. */
  function Run(s: ScanState, es: seq<Event>): ScanState
    decreases |es|
  {
    if es == [] then s else Run(Next(s, es[0]), es[1..])
  }

  /** Whatever the events, the page is in one of its three reachable states. */
  lemma {:induction false} RunPreservesInv(s: ScanState, es: seq<Event>)
    requires Inv(s)
    ensures Inv(Run(s, es))
    decreases |es|
  {
    if es != [] {
      NextPreservesInv(s, es[0]);
      RunPreservesInv(Next(s, es[0]), es[1..]);
    }
  }

  /** Scanning starts only from Idle, and only by the camera button or a file with a first entry. */
  lemma ScanStartsOnlyFromIdle(s: ScanState, e: Event)
    requires Inv(s) && !s.isScanning && Next(s, e).isScanning
    ensures PhaseOf(s) == Idle
    ensures e == CameraClick || (e.FileChange? && FirstFilePresent(e.files))
  {
  }

  /** A product appears only when the timer fires during a scan, and it is the FRESH001 record. */
  lemma FoundOnlyByTimer(s: ScanState, e: Event)
    requires Inv(s) && PhaseOf(s) != Found && PhaseOf(Next(s, e)) == Found
    ensures e == TimerFired && PhaseOf(s) == Scanning
    ensures Next(s, e).scannedProduct == Some(MockProducts[ScannedId])
  {
  }

  /** A file input change without a first file does nothing. */
  lemma EmptyFileInputIgnored(s: ScanState, files: Option<seq<string>>)
    requires !FirstFilePresent(files)
    ensures Next(s, FileChange(files)) == s
  {
  }

  /** "Scan Another Product" returns a found product's page to the initial state. */
  lemma ScanAnotherResets(s: ScanState)
    requires Inv(s) && PhaseOf(s) == Found
    ensures Next(s, ScanAnotherClick) == Initial
  {
  }

  /** The whole cycle Idle, Scanning, Found, Idle, by camera or by file. */
  lemma ScanCycle(files: seq<string>)
    requires |files| > 0
    ensures PhaseOf(Next(Initial, CameraClick)) == Scanning
    ensures PhaseOf(Run(Initial, [CameraClick, TimerFired])) == Found
    ensures Run(Initial, [CameraClick, TimerFired, ScanAnotherClick]) == Initial
    ensures Run(Initial, [FileChange(Some(files)), TimerFired, ScanAnotherClick]) == Initial
  {
  }

  /** The page's state cells, updated in place by the handlers. */
  class ScanPage {
    var isScanning: bool
    var scannedProduct: Option<Product>
    var pendingTimers: nat

    function State(): ScanState
      reads this
    {
      ScanState(isScanning, scannedProduct, pendingTimers)
    }

    ghost predicate Valid()
      reads this
    {
      Inv(State())
    }

    constructor ()
      ensures Valid() && State() == Initial && PhaseOf(State()) == Idle
    {
      isScanning := false;
      scannedProduct := None;
      pendingTimers := 0;
    }

    /** `simulateScan`; its callers run it only from Idle. */
    method SimulateScan()
      requires Valid() && PhaseOf(State()) == Idle
      modifies this
      ensures Valid() && State() == SimulateScanStep(old(State()))
      ensures isScanning && scannedProduct == old(scannedProduct) && PhaseOf(State()) == Scanning
    {
      isScanning := true;
      pendingTimers := pendingTimers + 1;
    }

    /** The "Start Camera Scan" button. */
    method CameraClick()
      requires Valid()
      modifies this
      ensures Valid() && State() == Next(old(State()), Event.CameraClick)
    {
      if PhaseOf(State()) == Idle {
        SimulateScan();
      }
    }

    /** The hidden file input's `onChange`. */
    method FileChange(files: Option<seq<string>>)
      requires Valid()
      modifies this
      ensures Valid() && State() == Next(old(State()), Event.FileChange(files))
    {
      if PhaseOf(State()) == Idle && files.Some? && |files.value| > 0 {
        SimulateScan();
      }
    }

    /** The scan timer fires. */
    method TimerFired()
      requires Valid()
      modifies this
      ensures Valid() && State() == Next(old(State()), Event.TimerFired)
      ensures old(pendingTimers) > 0 ==> !isScanning && scannedProduct == Some(MockProducts[ScannedId])
    {
      if pendingTimers > 0 {
        isScanning := false;
        scannedProduct := Some(ScannedProduct());
        pendingTimers := pendingTimers - 1;
      }
    }

    /** "Scan Another Product". */
    method ScanAnotherClick()
      requires Valid()
      modifies this
      ensures Valid() && State() == Next(old(State()), Event.ScanAnotherClick)
      ensures old(PhaseOf(State())) == Found ==> State() == Initial
    {
      if scannedProduct.Some? {
        scannedProduct := None;
        isScanning := false;
      }
    }
  }
}

=== FILE: search_filters.dfy ===
/**
 * The filter record of the search page and the operations of the filter
 * panel (components/search/search-filters.tsx). The panel never mutates the
 * record: every action builds a new record and hands it to the page.
 */
module SearchFilters {
  import opened Optional

  /** The five fields of the filter record; `dateRange` and `priceRange` are stored but never applied. */
  datatype Filters = Filters(
    location: string,
    certification: string,
    dateRange: string,
    priceRange: string,
    inStockOnly: bool)

  /** The keys `updateFilter` is called with. */
  datatype FilterKey = Location | Certification | DateRange | PriceRange | InStockOnly

  /** A field value: the four select boxes hold strings, the checkbox a boolean. */
  datatype FilterValue = Str(text: string) | Flag(on: bool)

  /** The keys in the record's insertion order, which is the order of `Object.values`. */
  const Keys: seq<FilterKey> := [Location, Certification, DateRange, PriceRange, InStockOnly]

  /** A key's position in `Keys`, which is also the order of the badges. */
  function Rank(k: FilterKey): (n: nat)
    ensures n < |Keys| && Keys[n] == k
  {
    match k
    case Location => 0
    case Certification => 1
    case DateRange => 2
    case PriceRange => 3
    case InStockOnly => 4
  }

  /** Keys listed in strictly increasing rank: in `Keys` order, none twice. */
  predicate InKeyOrder(ks: seq<FilterKey>)
  {
    forall i, j :: 0 <= i < j < |ks| ==> Rank(ks[i]) < Rank(ks[j])
  }

  /** Whether a value has the type of the field it is stored under. */
  predicate FitsKey(k: FilterKey, v: FilterValue)
  {
    v.Flag? <==> k == InStockOnly
  }

  /** `filters[key]`. */
  function Get(f: Filters, k: FilterKey): (v: FilterValue)
    ensures FitsKey(k, v)
  {
    match k
    case Location => Str(f.location)
    case Certification => Str(f.certification)
    case DateRange => Str(f.dateRange)
    case PriceRange => Str(f.priceRange)
    case InStockOnly => Flag(f.inStockOnly)
  }

  /** `updateFilter(key, value)`: `{ ...filters, [key]: value }`. */
  function UpdateFilter(f: Filters, k: FilterKey, v: FilterValue): (r: Filters)
    requires FitsKey(k, v)
    ensures Get(r, k) == v
    ensures forall k' :: k' != k ==> Get(r, k') == Get(f, k')
  {
    match k
    case Location => f.(location := v.text)
    case Certification => f.(certification := v.text)
    case DateRange => f.(dateRange := v.text)
    case PriceRange => f.(priceRange := v.text)
    case InStockOnly => f.(inStockOnly := v.on)
  }

  /** Applying the same update twice gives the record of applying it once. */
  lemma UpdateFilterIdempotent(f: Filters, k: FilterKey, v: FilterValue)
    requires FitsKey(k, v)
    ensures UpdateFilter(UpdateFilter(f, k, v), k, v) == UpdateFilter(f, k, v)
  {
  }

  /** Updates of two different keys do not interfere: their order does not matter. */
  lemma UpdateFilterCommutes(f: Filters, k1: FilterKey, v1: FilterValue, k2: FilterKey, v2: FilterValue)
    requires FitsKey(k1, v1) && FitsKey(k2, v2) && k1 != k2
    ensures UpdateFilter(UpdateFilter(f, k1, v1), k2, v2) == UpdateFilter(UpdateFilter(f, k2, v2), k1, v1)
  {
  }

  /** Writing back the value a key already holds changes nothing. */
  lemma UpdateFilterSameValue(f: Filters, k: FilterKey)
    ensures UpdateFilter(f, k, Get(f, k)) == f
  {
  }

  /** The empty value of a field: `''` for the strings, `false` for the checkbox. */
  function Blank(k: FilterKey): (v: FilterValue)
    ensures FitsKey(k, v)
  {
    if k == InStockOnly then Flag(false) else Str("")
  }

  /** `value !== '' && value !== false`. */
  predicate IsActive(v: FilterValue)
  {
    v != Str("") && v != Flag(false)
  }

  /** `clearAllFilters`: the record with every field empty, whatever was there before. */
  function ClearAllFilters(): (r: Filters)
    ensures forall k :: Get(r, k) == Blank(k)
  {
    Filters("", "", "", "", false)
  }

  /** `Object.values(filters)`, in key order. */
  function Values(f: Filters): (vs: seq<FilterValue>)
    ensures |vs| == |Keys|
    ensures forall i :: 0 <= i < |Keys| ==> vs[i] == Get(f, Keys[i])
  {
    [Str(f.location), Str(f.certification), Str(f.dateRange), Str(f.priceRange), Flag(f.inStockOnly)]
  }

  /**
   * `hasActiveFilters`: some value is neither `''` nor `false`. All five fields
   * count, including the two the page never applies.
   */
  function HasActiveFilters(f: Filters): (r: bool)
    ensures r <==> exists k :: Get(f, k) != Blank(k)
    ensures r <==> f.location != "" || f.certification != "" || f.dateRange != ""
                   || f.priceRange != "" || f.inStockOnly
  {
    var vs := Values(f);
    var r := exists i | 0 <= i < |vs| :: IsActive(vs[i]);
    assert r <==> IsActive(vs[0]) || IsActive(vs[1]) || IsActive(vs[2]) || IsActive(vs[3]) || IsActive(vs[4]);
    r
  }

  /** The cleared record has nothing active, and only the cleared record has nothing active. */
  lemma InactiveIffCleared(f: Filters)
    ensures !HasActiveFilters(f) <==> f == ClearAllFilters()
  {
  }

  /** A record whose only set field is `dateRange` is active. */
  lemma DateRangeAloneIsActive(d: string)
    requires d != ""
    ensures HasActiveFilters(UpdateFilter(ClearAllFilters(), DateRange, Str(d)))
  {
  }

  /** The remove button of the badge for key `k`: resets that field and no other. */
  function RemoveBadge(f: Filters, k: FilterKey): (r: Filters)
    ensures Get(r, k) == Blank(k)
    ensures forall k' :: k' != k ==> Get(r, k') == Get(f, k')
  {
    UpdateFilter(f, k, Blank(k))
  }

  /** Removing the five badges one after another, in display order, clears the record. */
  lemma RemoveAllBadgesClears(f: Filters)
    ensures RemoveBadge(RemoveBadge(RemoveBadge(RemoveBadge(RemoveBadge(
              f, Location), Certification), DateRange), PriceRange), InStockOnly) == ClearAllFilters()
  {
  }

  /** After removing one badge the record is active exactly when another field still is. */
  lemma RemoveBadgeActive(f: Filters, k: FilterKey)
    ensures HasActiveFilters(RemoveBadge(f, k)) <==> exists k' :: k' != k && Get(f, k') != Blank(k')
  {
  }

  /**
   * The badges of the "Active Filters" row, in display order: one per field
   * whose value is active.
   */
  function Badges(f: Filters): (r: seq<FilterKey>)
    ensures forall k :: k in r <==> Get(f, k) != Blank(k)
    ensures |r| > 0 <==> HasActiveFilters(f)
    ensures InKeyOrder(r)
  {
    var r := BadgesFrom(f, Keys);
    assert InKeyOrder(Keys) by {
      forall i, j | 0 <= i < j < |Keys|
        ensures Rank(Keys[i]) < Rank(Keys[j])
      {
        assert Rank(Keys[i]) == i && Rank(Keys[j]) == j;
      }
    }
    BadgesFromInOrder(f, Keys);
    assert |r| > 0 ==> Get(f, r[0]) != Blank(r[0]);
    r
  }

  function BadgesFrom(f: Filters, ks: seq<FilterKey>): (r: seq<FilterKey>)
    ensures forall k :: k in r <==> k in ks && Get(f, k) != Blank(k)
  {
    if ks == [] then []
    else (if IsActive(Get(f, ks[0])) then [ks[0]] else []) + BadgesFrom(f, ks[1..])
  }

  /** Selecting badges from keys in `Keys` order keeps that order. */
  lemma {:induction false} BadgesFromInOrder(f: Filters, ks: seq<FilterKey>)
    requires InKeyOrder(ks)
    ensures InKeyOrder(BadgesFrom(f, ks))
  {
    if ks != [] {
      var tail := ks[1..];
      assert InKeyOrder(tail);
      BadgesFromInOrder(f, tail);
      var rest := BadgesFrom(f, tail);
      if IsActive(Get(f, ks[0])) {
        forall k | k in rest
          ensures Rank(ks[0]) < Rank(k)
        {
          var m :| 0 <= m < |tail| && tail[m] == k;
          assert ks[m + 1] == k;
        }
        PrependInOrder(ks[0], rest);
      }
    }
  }

  /** A key ranked below every key of an ordered list can go in front of it. */
  lemma PrependInOrder(x: FilterKey, rest: seq<FilterKey>)
    requires InKeyOrder(rest) && forall k :: k in rest ==> Rank(x) < Rank(k)
    ensures InKeyOrder([x] + rest)
  {
    var r := [x] + rest;
    forall i, j | 0 <= i < j < |r|
      ensures Rank(r[i]) < Rank(r[j])
    {
      assert r[j] == rest[j - 1] && r[j] in rest;
      if i > 0 {
        assert r[i] == rest[i - 1];
      }
    }
  }

  /** One option of the date or price select box (`label` is a Dafny keyword, so the label is `caption`). */
  datatype RangeOption = RangeOption(caption: string, value: string)

  const DateRanges: seq<RangeOption> := [
    RangeOption("Today", "today"),
    RangeOption("Last 3 days", "3days"),
    RangeOption("Last week", "week"),
    RangeOption("Last month", "month")
  ]

  const PriceRanges: seq<RangeOption> := [
    RangeOption("Under $5", "0-5"),
    RangeOption("$5 - $10", "5-10"),
    RangeOption("$10 - $20", "10-20"),
    RangeOption("Over $20", "20+")
  ]

  /** The position of the option that `options.find(r => r.value === value)` returns, if any. */
  function FirstMatch(options: seq<RangeOption>, value: string): (r: Option<nat>)
    ensures r.None? <==> forall i :: 0 <= i < |options| ==> options[i].value != value
    ensures r.Some? ==> r.value < |options| && options[r.value].value == value
    ensures r.Some? ==> forall j :: 0 <= j < r.value ==> options[j].value != value
  {
    if options == [] then None
    else if options[0].value == value then Some(0)
    else match FirstMatch(options[1..], value)
      case None => None
      case Some(i) => Some(i + 1)
  }

  /** `options.find(r => r.value === value)?.label`: the label shown on the date and price badges. */
  function FindLabel(options: seq<RangeOption>, value: string): (r: Option<string>)
    ensures r.None? <==> forall i :: 0 <= i < |options| ==> options[i].value != value
    ensures r.Some? ==> exists i :: 0 <= i < |options| && options[i].value == value && options[i].caption == r.value
                          && forall j :: 0 <= j < i ==> options[j].value != value
  {
    match FirstMatch(options, value)
    case None => None
    case Some(i) => Some(options[i].caption)
  }

  predicate DistinctValues(options: seq<RangeOption>)
  {
    forall i, j :: 0 <= i < j < |options| ==> options[i].value != options[j].value
  }

  /** When the option values are distinct, every option's value finds that option's own label. */
  lemma FindLabelOfOption(options: seq<RangeOption>, i: int)
    requires DistinctValues(options) && 0 <= i < |options|
    ensures FindLabel(options, options[i].value) == Some(options[i].caption)
  {
  }

  /** Every selectable date or price value has its own label on the badge. */
  lemma RangeLabelsResolve(i: int)
    requires 0 <= i < 4
    ensures FindLabel(DateRanges, DateRanges[i].value) == Some(DateRanges[i].caption)
    ensures FindLabel(PriceRanges, PriceRanges[i].value) == Some(PriceRanges[i].caption)
  {
    FindLabelOfOption(DateRanges, i);
    FindLabelOfOption(PriceRanges, i);
  }
}

=== FILE: search_page.dfy ===
/**
 * The product search page (app/search/page.tsx): the query and filter
 * predicates, the filtered product list, the "Active" badge of the Filters
 * button, and the page state that its event handlers replace.
 */
module SearchPage {
  import opened Text
  import opened SearchFilters

  /** A product card of the search page. */
  datatype Product = Product(
    id: string,
    name: string,
    image: string,
    farmer: string,
    farm: string,
    location: string,
    harvestDate: string,
    certifications: seq<string>,
    price: string,
    distance: string,
    rating: real,
    inStock: bool)

  /** The filter record the page starts with and the one Clear Search writes back. */
  const InitialFilters: Filters := Filters("", "", "", "", false)

  /** The four text fields the query is searched in. */
  function SearchFields(p: Product): seq<string>
  {
    [p.name, p.farmer, p.farm, p.location]
  }

  /** `matchesSearch`: an empty query matches; otherwise the folded query occurs in a folded text field. */
  function MatchesSearch(p: Product, q: string): (r: bool)
    ensures q == "" ==> r
    ensures r <==> q == "" || exists t :: t in SearchFields(p) && Includes(Lower(t), Lower(q))
  {
    var lq := Lower(q);
    var r := q == ""
    || Includes(Lower(p.name), lq)
    || Includes(Lower(p.farmer), lq)
    || Includes(Lower(p.farm), lq)
    || Includes(Lower(p.location), lq);
    assert r ==> q == "" || exists t :: t in SearchFields(p) && Includes(Lower(t), Lower(q));
    assert (exists t :: t in SearchFields(p) && Includes(Lower(t), Lower(q))) ==> r;
    r
  }

  /** `cert.toLowerCase().includes(filters.certification.toLowerCase())` for some certification. */
  function SomeCertification(certs: seq<string>, c: string): (r: bool)
    ensures r <==> exists cert :: cert in certs && Includes(Lower(cert), Lower(c))
    ensures certs == [] ==> !r
    ensures c == "" ==> (r <==> certs != [])
  {
    assert c == "" && certs != [] ==> Includes(Lower(certs[0]), Lower(c));
    var r := exists i | 0 <= i < |certs| :: Includes(Lower(certs[i]), Lower(c));
    assert r ==> exists cert :: cert in certs && Includes(Lower(cert), Lower(c));
    assert (exists cert :: cert in certs && Includes(Lower(cert), Lower(c))) ==> r;
    r
  }

  /** `matchesFilters`: location, certification and stock, each off when empty or false. */
  function MatchesFilters(p: Product, f: Filters): (r: bool)
    ensures f.location == "" && f.certification == "" && !f.inStockOnly ==> r
    ensures r && f.location != "" ==> Includes(Lower(p.location), Lower(f.location))
    ensures r && f.certification != "" ==> SomeCertification(p.certifications, f.certification)
    ensures r && f.inStockOnly ==> p.inStock
    ensures ((f.location == "" || Includes(Lower(p.location), Lower(f.location)))
             && (f.certification == "" || SomeCertification(p.certifications, f.certification))
             && (!f.inStockOnly || p.inStock)) ==> r
  {
    (f.location == "" || Includes(Lower(p.location), Lower(f.location)))
    && (f.certification == "" || SomeCertification(p.certifications, f.certification))
    && (!f.inStockOnly || p.inStock)
  }

  /** The predicate handed to `filter`. */
  predicate Keep(p: Product, q: string, f: Filters)
  {
    MatchesSearch(p, q) && MatchesFilters(p, f)
  }

  /** `r` can be obtained from `s` by deleting elements, keeping the order of the rest. */
  predicate IsSubsequence(r: seq<Product>, s: seq<Product>)
    decreases |s|
  {
    if r == [] then true
    else if s == [] then false
    else (r[0] == s[0] && IsSubsequence(r[1..], s[1..])) || IsSubsequence(r, s[1..])
  }

  /**
   * `filteredProducts`: the products that pass both predicates, in their
   * original order.
   */
  function FilteredProducts(ps: seq<Product>, q: string, f: Filters): (r: seq<Product>)
    ensures |r| <= |ps|
    ensures IsSubsequence(r, ps)
    ensures forall p :: p in r <==> p in ps && Keep(p, q, f)
  {
    if ps == [] then []
    else
      var rest := FilteredProducts(ps[1..], q, f);
      if Keep(ps[0], q, f) then
        assert ([ps[0]] + rest)[1..] == rest;
        [ps[0]] + rest
      else rest
  }

  /** Each kept product appears as often as in the input, every other product not at all. */
  lemma {:induction false} FilteredMultiplicity(ps: seq<Product>, q: string, f: Filters, p: Product)
    ensures multiset(FilteredProducts(ps, q, f))[p] == if Keep(p, q, f) then multiset(ps)[p] else 0
  {
    if ps != [] {
      FilteredMultiplicity(ps[1..], q, f, p);
      var rest := FilteredProducts(ps[1..], q, f);
      assert multiset(ps) == multiset{ps[0]} + multiset(ps[1..]) by {
        assert ps == [ps[0]] + ps[1..];
      }
      if Keep(ps[0], q, f) {
        assert FilteredProducts(ps, q, f) == [ps[0]] + rest;
      } else {
        assert FilteredProducts(ps, q, f) == rest;
      }
    }
  }

  /** Filtering a second time with the same query and filters changes nothing. */
  lemma {:induction false} FilteredIdempotent(ps: seq<Product>, q: string, f: Filters)
    ensures FilteredProducts(FilteredProducts(ps, q, f), q, f) == FilteredProducts(ps, q, f)
  {
    if ps != [] {
      FilteredIdempotent(ps[1..], q, f);
      var rest := FilteredProducts(ps[1..], q, f);
      if Keep(ps[0], q, f) {
        assert ([ps[0]] + rest)[1..] == rest;
      }
    }
  }

  /** An empty query matches every product. */
  lemma EmptyQueryMatches(p: Product)
    ensures MatchesSearch(p, "")
  {
  }

  /** The query is compared case-insensitively: a query and its folded form match the same products. */
  lemma QueryCaseInsensitive(p: Product, q: string, q': string)
    requires Lower(q) == Lower(q')
    ensures MatchesSearch(p, q) <==> MatchesSearch(p, q')
  {
  }

  /** A product is found by its own name, typed in any letter case. */
  lemma NameFindsProduct(p: Product, q: string)
    requires Lower(q) == Lower(p.name)
    ensures MatchesSearch(p, q)
  {
  }

  /** A query that occurs exactly in a product's name, letter case included, finds that product. */
  lemma {:induction false} NameSubstringFindsProduct(p: Product, q: string)
    requires Includes(p.name, q)
    ensures MatchesSearch(p, q)
  {
    IncludesLowered(p.name, q);
  }

  /** With "in stock only" ticked, no out-of-stock product survives the filter. */
  lemma InStockOnlyExcludes(ps: seq<Product>, q: string, f: Filters)
    requires f.inStockOnly
    ensures forall p :: p in FilteredProducts(ps, q, f) ==> p.inStock
  {
  }

  /** `dateRange` and `priceRange` never change the result. */
  lemma {:induction false} RangesIgnored(ps: seq<Product>, q: string, f: Filters, d: string, pr: string)
    ensures FilteredProducts(ps, q, f.(dateRange := d, priceRange := pr)) == FilteredProducts(ps, q, f)
  {
    if ps != [] {
      RangesIgnored(ps[1..], q, f, d, pr);
    }
  }

  /** With an empty query and the initial filters, every product is returned, in order. */
  lemma {:induction false} ClearedReturnsAll(ps: seq<Product>)
    ensures FilteredProducts(ps, "", InitialFilters) == ps
  {
    if ps != [] {
      ClearedReturnsAll(ps[1..]);
      assert Keep(ps[0], "", InitialFilters);
      assert ps == [ps[0]] + ps[1..];
    }
  }

  /**
   * The "Active" badge on the Filters button. It looks at location,
   * certification and stock only: when it is off the filters constrain
   * nothing, and when it is on the panel also reports active filters.
   */
  function ActiveBadge(f: Filters): (r: bool)
    ensures r ==> HasActiveFilters(f)
    ensures !r ==> forall p :: MatchesFilters(p, f)
    ensures r <==> HasActiveFilters(f.(dateRange := "", priceRange := ""))
  {
    f.location != "" || f.certification != "" || f.inStockOnly
  }

  /** The badge and the panel disagree on a record whose only set field is a date range. */
  lemma BadgeOffWhilePanelActive()
    ensures var f := InitialFilters.(dateRange := "today");
            HasActiveFilters(f) && !ActiveBadge(f)
  {
  }

  /**
   * The state cells of the page. Each handler replaces one cell (or two, for
   * Clear Search); the product list shown is a function of the cells. The
   * catalogue is the page's fixed product list (its `mockProducts` array).
   */
  class Page {
    const catalogue: seq<Product>
    var searchQuery: string
    var showFilters: bool
    var filters: Filters
    var sortBy: string

    constructor (products: seq<Product>)
      ensures catalogue == products
      ensures searchQuery == "" && !showFilters && filters == InitialFilters && sortBy == "relevance"
      ensures Results() == products
    {
      catalogue := products;
      searchQuery := "";
      showFilters := false;
      filters := InitialFilters;
      sortBy := "relevance";
      new;
      ClearedReturnsAll(products);
    }

    /** `filteredProducts` for the current query and filters, before sorting. */
    function Results(): (r: seq<Product>)
      reads this
      ensures IsSubsequence(r, catalogue)
      ensures forall p :: p in r <==> p in catalogue && Keep(p, searchQuery, filters)
    {
      FilteredProducts(catalogue, searchQuery, filters)
    }

    /** The search box's `onChange`. */
    method SetSearchQuery(q: string)
      modifies this
      ensures searchQuery == q
      ensures showFilters == old(showFilters) && filters == old(filters) && sortBy == old(sortBy)
    {
      searchQuery := q;
    }

    /** The Filters button: shows or hides the panel; the results stay the same. */
    method ToggleFilters()
      modifies this
      ensures showFilters == !old(showFilters)
      ensures searchQuery == old(searchQuery) && filters == old(filters) && sortBy == old(sortBy)
      ensures Results() == old(Results())
    {
      showFilters := !showFilters;
    }

    /** The sort select's `onChange`; the filtered list does not depend on it. */
    method SetSortBy(s: string)
      modifies this
      ensures sortBy == s
      ensures searchQuery == old(searchQuery) && showFilters == old(showFilters) && filters == old(filters)
      ensures Results() == old(Results())
    {
      sortBy := s;
    }

    /** `onFiltersChange` of the panel, fed by a field update or a badge's remove button. */
    method ApplyFilterUpdate(k: FilterKey, v: FilterValue)
      requires FitsKey(k, v)
      modifies this
      ensures filters == UpdateFilter(old(filters), k, v)
      ensures searchQuery == old(searchQuery) && showFilters == old(showFilters) && sortBy == old(sortBy)
    {
      filters := UpdateFilter(filters, k, v);
    }

    /** `onFiltersChange` of the panel's Clear All button: only the filters are reset, not the query. */
    method ApplyClearAll()
      modifies this
      ensures filters == ClearAllFilters() && !HasActiveFilters(filters)
      ensures searchQuery == old(searchQuery) && showFilters == old(showFilters) && sortBy == old(sortBy)
      ensures Results() == FilteredProducts(catalogue, searchQuery, ClearAllFilters())
    {
      filters := ClearAllFilters();
    }

    /** The Clear Search button: empty query and initial filters, so every product is shown again. */
    method ClearSearch()
      requires Results() == []
      modifies this
      ensures searchQuery == "" && filters == InitialFilters && !ActiveBadge(filters)
      ensures showFilters == old(showFilters) && sortBy == old(sortBy)
      ensures Results() == catalogue
    {
      searchQuery := "";
      filters := InitialFilters;
      ClearedReturnsAll(catalogue);
    }
  }
}

=== FILE: text.dfy ===
/**
 * String helpers shared by the search page and the map components:
 * `toLowerCase` (ASCII letters only), `String.prototype.includes`, and
 * `split(',')[0]`.
 */
module Text {

  predicate IsUpper(c: char) { 'A' <= c <= 'Z' }

  /** `toLowerCase` on one character, restricted to the ASCII letters. */
  function LowerChar(c: char): (r: char)
    ensures !IsUpper(r)
    ensures !IsUpper(c) ==> r == c
    ensures IsUpper(c) ==> r as int - c as int == 'a' as int - 'A' as int
  {
    if IsUpper(c) then (c as int + ('a' as int - 'A' as int)) as char else c
  }

  /** `toLowerCase` on a string: every character folded, nothing else changed. */
  function Lower(s: string): (r: string)
    ensures |r| == |s|
    ensures forall i :: 0 <= i < |s| ==> r[i] == LowerChar(s[i])
  {
    if s == [] then [] else [LowerChar(s[0])] + Lower(s[1..])
  }

  /** Folding twice is folding once. */
  lemma LowerIdempotent(s: string)
    ensures Lower(Lower(s)) == Lower(s)
  {
  }

  /** Folding commutes with taking a slice. */
  lemma LowerSlice(s: string, i: int, j: int)
    requires 0 <= i <= j <= |s|
    ensures Lower(s)[i..j] == Lower(s[i..j])
  {
    var ls, t := Lower(s), s[i..j];
    var a, b := ls[i..j], Lower(t);
    forall k | 0 <= k < j - i
      ensures a[k] == b[k]
    {
      assert a[k] == ls[i + k] == LowerChar(s[i + k]);
      assert b[k] == LowerChar(t[k]) && t[k] == s[i + k];
    }
    assert a == b;
  }

  /** `needle` sits in `hay` starting at offset `i`. */
  predicate OccursAt(hay: string, needle: string, i: int)
  {
    0 <= i && i + |needle| <= |hay| && hay[i..i + |needle|] == needle
  }

  /** `hay.includes(needle)`: the needle occurs at some offset. */
  function Includes(hay: string, needle: string): (r: bool)
    ensures r ==> |needle| <= |hay|
    ensures needle <= hay ==> r
    ensures needle == [] ==> r
    ensures forall i :: OccursAt(hay, needle, i) ==> r
    ensures r ==> exists i :: OccursAt(hay, needle, i)
  {
    assert needle <= hay ==> OccursAt(hay, needle, 0);
    exists i | 0 <= i <= |hay| :: OccursAt(hay, needle, i)
  }

  /** An exact occurrence is also an occurrence once both sides are folded. */
  lemma IncludesLowered(hay: string, needle: string)
    requires Includes(hay, needle)
    ensures Includes(Lower(hay), Lower(needle))
  {
    var i :| 0 <= i <= |hay| && OccursAt(hay, needle, i);
    var lh, ln := Lower(hay), Lower(needle);
    LowerSlice(hay, i, i + |needle|);
    assert lh[i..i + |ln|] == ln;
    assert OccursAt(lh, ln, i);
  }

  /** `s.split(',')[0]`: the text before the first comma, or all of `s` when it has none. */
  function BeforeComma(s: string): (r: string)
    ensures r <= s
    ensures ',' !in r
    ensures |r| < |s| ==> s[|r|] == ','
  {
    if s == [] || s[0] == ',' then [] else [s[0]] + BeforeComma(s[1..])
  }

  /** The label is the whole string exactly when the string has no comma. */
  lemma BeforeCommaWhole(s: string)
    ensures BeforeComma(s) == s <==> ',' !in s
  {
  }

  /** The three properties of `BeforeComma` pin its result down: no other prefix has them. */
  lemma BeforeCommaUnique(s: string, p: string)
    requires p <= s && ',' !in p && (|p| < |s| ==> s[|p|] == ',')
    ensures p == BeforeComma(s)
  {
  }

  /** Text before a comma is recovered from `a + "," + b` when `a` has no comma. */
  lemma BeforeCommaOfJoin(a: string, b: string)
    requires ',' !in a
    ensures BeforeComma(a + "," + b) == a
  {
    BeforeCommaUnique(a + "," + b, a);
  }
}
